=== FILE: README.md ===
# appfix: bundling the libraries a macOS application links against

`appfix.py` makes an application bundle self-contained. A `Fixer` holds the
bundle path, a work list of `File(name, destination)` entries and a list of
path patterns for system libraries (`/usr/lib/`, `/System/`). `fix` walks the
work list. For each entry it:

1. joins the bundle, `Contents` and the destination with `os.path.join`;
2. copies the file there if that path does not exist;
3. runs `otool -L` on the path and keeps the names on tab-led lines that are
   not `@executable_path`, `@loader_path` or `@rpath` relative;
4. drops the names that match a system pattern;
5. appends `File(x, x)` for every remaining name `x`.

The list grows while it is walked, so appended entries are processed later in
the same call.

This Dafny project models that core:

- `text.dfy` (module `Text`): substring search, which stands for Python's
  `in` on strings and for the unanchored regular-expression search.
- `posix_path.dfy` (module `PosixPath`): the POSIX `os.path.join`.
- `otool.dfy` (module `Otool`): reading dependency names out of `otool -L`
  output lines.
- `walk.dfy` (module `Walk`): the records and a pure account of one run of
  `fix`.
  - `Step` processes one entry.
  - `Run` processes the list from an index with at most `fuel` steps and
    returns a `Trace`: how the run ended, the final list and set of paths, and
    the paths handed to the inspector, in order.
- `appfix.dfy` (module `AppFix`): the `Fixer` class and a small `FileSystem`
  class.
  - `Fixer` keeps the list and the filter as fields. `AddFile` appends in
    place, and `Fix` runs a `while` loop over the growing list.
  - `CheckIfFiltered`, `GetDependencies`, `Survivors`, `Process`,
    `ProcessList` and `Fix` are proved against the pure functions above.

The outside world enters as parameters:

- The file system is a `FileSystem` object whose `paths` field is the set of
  existing paths. It also has a ghost counter of copies that replaced an
  existing file.
- `otool` is an oracle `inspect: string -> seq<Line>` from a path to the lines
  it prints.

Behaviour of `appfix.py` that the model keeps as written:

- `fix` keeps no record of processed entries and has no guard against an
  entry naming itself. A shared dependency is processed each time it is
  enqueued. On a dependency cycle of absolute library names `fix` never
  completes: it runs forever, or fails on some entry whose path and source
  are both missing (`Walk.CycleNeverCompletes`, which covers cycles of
  absolute names).
- An absolute destination replaces everything before it in `os.path.join`.
  An entry made from an absolute dependency is therefore never placed under
  `Contents`: its joined path is the library's own path (`Walk.ContentsPath`,
  `Walk.DependencyEntryAddsNothing`). Such an entry is copied only when the
  library is missing, and then the copy fails.
- The parser drops only names holding one of the three `@` tokens; it does
  not require a leading `/`. A dependency printed as a bare install name
  (`libfoo.dylib`) is placed under `Contents` (`Walk.ContentsPathRelative`)
  and copied from that name, a path relative to the current directory.
- The dependency name ends at the first space of the line, so a library path
  containing a space, such as one under `/Library/Application Support`, is cut
  short there; the truncated name goes on to the filter and, if it survives,
  is enqueued (`Otool.SpacedNameTruncated`).

## Model

| member | source | states |
|---|---|---|
| `Text.Contains` | appfix.py:56 | `p in s` holds exactly when `p` occurs in `s` at some position |
| `PosixPath.Join` | appfix.py:65 | an absolute component replaces what was joined so far; a relative one is appended after a `/` separator when the path so far is non-empty and does not end in `/` |
| `PosixPath.JoinAfterSeparator` | appfix.py:65 | a relative component joined onto an empty path, or onto one ending in `/` (a bundle given as `MyApp.app/`), is appended with no separator added |
| `PosixPath.JoinAll` | appfix.py:65 | joining several components: the result is the last component when that one is absolute |
| `PosixPath.JoinThreeRelative` | appfix.py:65 | with relative components and no stray separators, three components give `a/b/c` |
| `Otool.FirstField` | appfix.py:46 | `s.split(' ', 1)[0]` is a prefix of `s` without a space, ending at the end of `s` or just before a space |
| `Otool.DepName` | appfix.py:46 | the name is the text after the leading tab up to the first space, and it contains no space |
| `Otool.DepNameUnique` | appfix.py:46 | those properties determine the name: a line carries exactly one name |
| `Otool.IsRelativeMeaning` | appfix.py:48 | the unanchored regular-expression search succeeds exactly when some `@` in the name is immediately followed by `executable_path`, `loader_path` or `rpath` |
| `Otool.LineDependencyMeaning` | appfix.py:45-49 | a line contributes at most one name, and `x` is it exactly when the line starts with a tab, `x` is the text after the tab up to the first space or the end, and `x` is not relative |
| `Otool.Dependencies` | appfix.py:39-52 | no more names than lines, and no returned name contains `@executable_path`, `@loader_path` or `@rpath` |
| `Otool.DependenciesMembership` | appfix.py:45-49 | a name is returned exactly when some tab-led line carries it and it is not relative; other lines, the header included, contribute nothing |
| `Otool.DependenciesConcat` | appfix.py:42-52 | the names keep the order of their lines and duplicates are kept: the parse of concatenated output is the concatenation of the parses |
| `Otool.DependenciesSnoc` | appfix.py:42-49 | reading one more line appends exactly that line's contribution |
| `Otool.LibraryLineName` | appfix.py:46 | a library line `\t<name> <note>` names `<name>` when the name has no space |
| `Otool.SpacedNameTruncated` | appfix.py:46 | a library path containing a space is cut short at its first space |
| `Otool.TypicalListing` | appfix.py:42-49 | on a header line, two absolute libraries and an `@rpath` library, the result is the two absolute libraries in printed order |
| `Walk.Filtered` | appfix.py:54-58 | a path is filtered exactly when some pattern of the filter occurs in it |
| `Walk.DefaultFilterMeaning` | appfix.py:34 | with the initial filter a path is filtered exactly when it contains `/usr/lib/` or `/System/` |
| `Walk.ContentsPath` | appfix.py:65 | the entry's path is its destination joined onto `<bundle>/Contents`, and an absolute destination is that path itself |
| `Walk.ContentsPathRelative` | appfix.py:65 | a relative destination lands at `<bundle>/Contents/<destination>` |
| `Walk.Enqueued` | appfix.py:76-81 | every new entry is `File(x, x)` for a dependency `x` the filter lets through, and there are no more of them than dependencies |
| `Walk.EnqueuedMembership` | appfix.py:76-81 | `File(x, x)` is enqueued exactly when `x` is a dependency and is not filtered |
| `Walk.EnqueuedConcat` | appfix.py:76-81 | filtering keeps discovery order and duplicates |
| `Walk.Step` | appfix.py:65-82 | a step fails exactly when neither the entry's path nor its source exists; otherwise that path exists afterwards and the old list is an unchanged prefix of the new one |
| `Walk.StepAppendsSurvivors` | appfix.py:72-82 | what one step appends is exactly the unfiltered dependencies of the inspected path, each as `File(x, x)` |
| `Walk.DependencyEntryAddsNothing` | appfix.py:65-70 | an entry made from an absolute dependency fails exactly when the dependency is missing, and otherwise adds no path |
| `Walk.Run` | appfix.py:60-82 | a run never removes or changes an entry and never removes a path |
| `Walk.RunAppendsOnlySurvivors` | appfix.py:76-82 | every entry a run appends is `File(x, x)` for a path the filter lets through |
| `Walk.RunInspectsInOrder` | appfix.py:61-72 | entries are inspected in list order, appended ones included, each at its joined path, which is in the final set of paths; a completed run processed every entry, and one cut off by its bound processed exactly that many |
| `Walk.RunAppendsAllSurvivors` | appfix.py:72-82 | every dependency the filter lets through, of every path the run inspects, stands as `File(x, x)` in the final list, after the index the run started from |
| `Walk.CompletedRunIsClosed` | appfix.py:60-82 | in a completed run, every unfiltered dependency of every inspected path has been processed, so its joined path exists |
| `Walk.CycleStep` | appfix.py:76-82 | a successful step keeps an entry on a dependency cycle at a later index |
| `Walk.CycleNeverCompletes` | appfix.py:60-82 | with no record of processed entries, an unprocessed entry on a dependency cycle keeps the run from ever completing: it runs out of its bound or fails |
| `AppFix.FileSystem.Copy` | appfix.py:70 | the copy fails when the source is missing; otherwise the target exists afterwards, and the overwrite counter grows when it existed before |
| `AppFix.Fixer.constructor` | appfix.py:28-34 | a fixer is built only for a bundle path that exists, and holds that path, an empty list and the system-library filter |
| `AppFix.Fixer.Create` | appfix.py:28-34 | construction fails with the bundle path exactly when that path does not exist; otherwise the new fixer starts empty with the default filter |
| `AppFix.Fixer.AddFile` | appfix.py:36-37 | the entry is appended at the end of the list and the filter is unchanged |
| `AppFix.Fixer.CheckIfFiltered` | appfix.py:54-58 | the early-return loop answers true exactly when some pattern occurs in the path |
| `AppFix.Fixer.GetDependencies` | appfix.py:39-52 | the loop over the output lines returns the parse of those lines |
| `AppFix.Fixer.Survivors` | appfix.py:76-81 | the comprehension returns the entries `Enqueued` describes |
| `AppFix.Fixer.Process` | appfix.py:65-82 | one pass of the loop body fails, changing nothing, exactly when the path and the source are both missing; otherwise it appends the filtered dependencies of the joined path, makes that path exist and overwrites nothing |
| `AppFix.Fixer.ProcessList` | appfix.py:61-82 | the loop over the growing list produces the outcome, final state and inspected paths of `Run` |
| `AppFix.Fixer.Fix` | appfix.py:60-82 | `fix` behaves as `Run` from the first entry on the bundle's `Contents` directory, leaves the filter unchanged and overwrites no file |

## Left out

- Running `/usr/bin/otool` and decoding its bytes: the inspector is a
  parameter from a path to its output lines.
- Output lines are assumed non-empty. Every line read from the pipe keeps its
  terminator, so `l[0]` never fails in practice.
- The regular-expression engine: the unanchored alternation is three
  substring tests.
- The real file system:
  - existence is membership in a set of paths, and a copy adds its target;
  - file contents, the current directory against which relative source names
    resolve, and copy errors other than a missing source (missing parent
    directory, permissions, a directory as source) are not modelled.
- `verbose` and every `print`: they only log.
- The `__main__` command line.
- `AppFix.Fixer.Fix`, `Walk.Run`: the loop runs at most `fuel` entries and then
  reports `OutOfFuel`, because the source loop need not terminate. What
  happens beyond the bound is not described.
- `AppFix.Fixer.constructor`: requires the bundle to exist, which is when
  `__init__` returns; the raising case is `AppFix.Fixer.Create`'s error
  result.
- Exceptions: the constructor's raise and a failed copy are results
  (`Result`, `Outcome.Failed`). Which exception type Python raises is not
  modelled.

=== FILE: appfix.dfy ===
/**
 * The `Fixer` object: its work list, its filter, and `fix`, which walks the
 * list while appending to it, against a file system given as a set of paths
 * and an inspector that lists a binary's load commands.
 */
module AppFix {
  import opened Text
  import opened PosixPath
  import opened Otool
  import opened Walk

  /** The file system as far as `Fixer` sees it: which paths exist, and how many copies replaced an existing file. */
  class FileSystem {
    var paths: set<string>
    ghost var overwrites: nat

    constructor (existing: set<string>)
      ensures paths == existing && overwrites == 0
    {
      paths := existing;
      overwrites := 0;
    }

    /** `os.path.exists`. */
    predicate Exists(p: string)
      reads this
    {
      p in paths
    }

    /**
     * `shutil.copy(source, target)`: fails when the source does not exist,
     * otherwise the target exists afterwards, and was overwritten when it
     * existed before.
     */
    method Copy(source: string, target: string) returns (ok: bool)
      modifies this
      ensures ok <==> source in old(paths)
      ensures ok ==> paths == old(paths) + {target}
      ensures !ok ==> paths == old(paths)
      ensures overwrites == if ok && target in old(paths) then old(overwrites) + 1 else old(overwrites)
    {
      ok := source in paths;
      if ok {
        if target in paths {
          overwrites := overwrites + 1;
        }
        paths := paths + {target};
      }
    }
  }

  class Fixer {
    const bundle: string
    var list: seq<File>
    var pathfilter: seq<string>

    /**
     * `Fixer(app)` when it returns: `app` exists, and the fixer starts with
     * an empty work list and the system-library filter.
     */
    constructor (app: string, fs: FileSystem)
      requires app in fs.paths
      ensures bundle == app && list == [] && pathfilter == DefaultFilter
    {
      bundle := app;
      list := [];
      pathfilter := DefaultFilter;
    }

    /** `Fixer(app)` with its exception as a result: refuses a bundle path that does not exist. */
    static method Create(app: string, fs: FileSystem) returns (r: Result<Fixer>)
      ensures r.Err? <==> app !in fs.paths
      ensures r.Err? ==> r.error == BundleNotFound(app)
      ensures r.Ok? ==> fresh(r.value) && r.value.bundle == app && r.value.list == [] && r.value.pathfilter == DefaultFilter
    {
      if !fs.Exists(app) {
        return Err(BundleNotFound(app));
      }
      var fixer := new Fixer(app, fs);
      return Ok(fixer);
    }

    /** `addFile`: appends one entry to the work list. */
    method AddFile(file: File)
      modifies this
      ensures list == old(list) + [file]
      ensures pathfilter == old(pathfilter)
    {
      list := list + [file];
    }

    /** `_checkIfFiltered`: whether some pattern of the filter occurs in `path`. */
    method CheckIfFiltered(path: string) returns (filtered: bool)
      ensures filtered <==> exists k :: 0 <= k < |pathfilter| && Contains(path, pathfilter[k])
      ensures filtered == Filtered(pathfilter, path)
    {
      for i := 0 to |pathfilter|
        invariant forall k :: 0 <= k < i ==> !Contains(path, pathfilter[k])
      {
        if Contains(path, pathfilter[i]) {
          return true;
        }
      }
      return false;
    }

    /**
     * `_getDependencies`: the name on each tab-led line of the inspector's
     * output, unless it is relative, in line order.
     */
    static method GetDependencies(lines: seq<Line>) returns (deps: seq<string>)
      ensures deps == Dependencies(lines)
    {
      deps := [];
      for k := 0 to |lines|
        invariant deps == Dependencies(lines[..k])
      {
        var l := lines[k];
        if l[0] == '\t' {
          var name := DepName(l);
          if !IsRelative(name) {
            deps := deps + [name];
          }
        }
        assert lines[..k + 1] == lines[..k] + [l];
        DependenciesSnoc(lines[..k], l);
      }
      assert lines[..|lines|] == lines;
    }

    /** `[File(x, x) for x in deps if not self._checkIfFiltered(x)]`. */
    method Survivors(deps: seq<string>) returns (newfiles: seq<File>)
      ensures newfiles == Enqueued(pathfilter, deps)
    {
      newfiles := [];
      for k := 0 to |deps|
        invariant newfiles == Enqueued(pathfilter, deps[..k])
      {
        var x := deps[k];
        var filtered := CheckIfFiltered(x);
        if !filtered {
          newfiles := newfiles + [File(x, x)];
        }
        assert deps[..k + 1][..k] == deps[..k];
      }
      assert deps[..|deps|] == deps;
    }

    /**
     * One pass of the body of `fix` for `file`, where `contents` is the
     * bundle's `Contents` directory and `discover` lists the dependencies
     * named in the inspector's output: copies the file into place when its
     * path there is missing, inspects that path and appends an entry for
     * every dependency the filter lets through. It fails, changing nothing,
     * exactly when neither that path nor the file to copy exists, and it
     * never overwrites a file.
     */
    method Process(file: File, contents: string, fs: FileSystem, inspect: string -> seq<Line>, ghost discover: string -> seq<string>) returns (error: Option<Error>)
      requires forall p {:trigger inspect(p)} :: discover(p) == Dependencies(inspect(p))
      modifies this, fs
      ensures pathfilter == old(pathfilter)
      ensures error.Some? <==> Join(contents, file.destination) !in old(fs.paths) && file.name !in old(fs.paths)
      ensures error.Some? ==> error.value == CopyFailure(file.name, Join(contents, file.destination)) && list == old(list) && fs.paths == old(fs.paths)
      ensures error.None? ==> list == old(list) + Enqueued(pathfilter, discover(Join(contents, file.destination)))
      ensures error.None? ==> fs.paths == old(fs.paths) + {Join(contents, file.destination)}
      ensures fs.overwrites == old(fs.overwrites)
    {
      var full := Join(contents, file.destination);
      if !fs.Exists(full) {
        var ok := fs.Copy(file.name, full);
        if !ok {
          return Some(CopyFailure(file.name, full));
        }
      }
      var deps := GetDependencies(inspect(full));
      var newfiles := Survivors(deps);
      list := list + newfiles;
      return None;
    }

    /**
     * The loop of `fix` over the work list, entries appended meanwhile
     * included, at most `fuel` of them, with `contents` and `discover` as
     * for `Process`: the run is the one `Run` describes.
     */
    method ProcessList(contents: string, fs: FileSystem, inspect: string -> seq<Line>, ghost discover: string -> seq<string>, fuel: nat)
      returns (outcome: Outcome, ghost inspected: seq<string>)
      requires forall p {:trigger inspect(p)} :: discover(p) == Dependencies(inspect(p))
      modifies this, fs
      ensures Run(contents, old(pathfilter), discover, State(old(list), old(fs.paths)), 0, fuel)
        == Trace(outcome, State(list, fs.paths), inspected)
      ensures pathfilter == old(pathfilter)
      ensures fs.overwrites == old(fs.overwrites)
    {
      ghost var filter := pathfilter;
      ghost var start := State(list, fs.paths);
      inspected := [];
      ghost var whole := Run(contents, filter, discover, start, 0, fuel);
      PrefixedNothing(whole);
      var i := 0;
      ghost var left := fuel;
      while i < |list|
        invariant i <= |list| && left == fuel - i
        invariant pathfilter == filter
        invariant fs.overwrites == old(fs.overwrites)
        invariant whole == Prefixed(inspected, Run(contents, filter, discover, State(list, fs.paths), i, left))
        decreases left
      {
        ghost var st := State(list, fs.paths);
        if i == fuel {
          RunStops(contents, filter, discover, st, i, left);
          return OutOfFuel, inspected;
        }
        var file := list[i];
        var error := Process(file, contents, fs, inspect, discover);
        if error.Some? {
          RunFails(contents, filter, discover, st, i, left);
          return Failed(error.value), inspected;
        }
        RunAfterStep(contents, filter, discover, whole, inspected, st, i, left, State(list, fs.paths));
        inspected := inspected + [Join(contents, st.list[i].destination)];
        i := i + 1;
        left := left - 1;
      }
      RunStops(contents, filter, discover, State(list, fs.paths), i, left);
      return Completed, inspected;
    }

    /**
     * `fix`: processes the work list in order, entries appended meanwhile
     * included, at most `fuel` of them. The run is the one `Run` describes
     * for the bundle's `Contents` directory and the dependencies the
     * inspector reports, and no file is overwritten; `inspected` lists the
     * paths handed to the inspector.
     */
    method Fix(fs: FileSystem, inspect: string -> seq<Line>, fuel: nat) returns (outcome: Outcome, ghost inspected: seq<string>)
      modifies this, fs
      ensures Run(ContentsDir(bundle), old(pathfilter), Inspector(inspect), State(old(list), old(fs.paths)), 0, fuel)
        == Trace(outcome, State(list, fs.paths), inspected)
      ensures pathfilter == old(pathfilter)
      ensures fs.overwrites == old(fs.overwrites)
    {
      outcome, inspected := ProcessList(ContentsDir(bundle), fs, inspect, Inspector(inspect), fuel);
    }
  }
}

=== FILE: otool.dfy ===
/**
 * Reading the dependency list out of the lines `otool -L <path>` prints:
 * a header line naming the inspected file, then one tab-led line per
 * linked library, `\t<path> (compatibility version ..., current version ...)`.
 */
module Otool {
  import opened Text

  /** One line of the inspector's output. A pipe read line by line never yields an empty line: each keeps its terminator. */
  type Line = s: string | |s| > 0 witness "\n"

  /** `s.split(' ', 1)[0]`: the text before the first space, or all of `s` when it has none. */
  function FirstField(s: string): (r: string)
    ensures r <= s
    ensures ' ' !in r
    ensures |r| == |s| || s[|r|] == ' '
  {
    if s == [] || s[0] == ' ' then [] else [s[0]] + FirstField(s[1..])
  }

  /** The library named on a tab-led line: the text after the tab and before the first space. */
  function DepName(l: Line): (name: string)
    requires l[0] == '\t'
    ensures ['\t'] + name <= l
    ensures ' ' !in name
    ensures |name| + 1 == |l| || l[|name| + 1] == ' '
  {
    FirstField(l)[1..]
  }

  /**
   * The search for `@(executable_path|loader_path|rpath)`: the name mentions
   * a load path relative to the executable, to the loading library or to the
   * run-path list.
   */
  predicate IsRelative(name: string)
  {
    Contains(name, "@executable_path") || Contains(name, "@loader_path") || Contains(name, "@rpath")
  }

  /**
   * The unanchored search for `@(executable_path|loader_path|rpath)`: some
   * `@` in the name is immediately followed by one of the three words.
   */
  lemma IsRelativeMeaning(name: string)
    ensures IsRelative(name) <==>
      exists i: nat :: i < |name| && name[i] == '@' &&
        (OccursAt(name, "executable_path", i + 1) || OccursAt(name, "loader_path", i + 1) || OccursAt(name, "rpath", i + 1))
  {
    assert "@executable_path" == ['@'] + "executable_path";
    assert "@loader_path" == ['@'] + "loader_path";
    assert "@rpath" == ['@'] + "rpath";
    forall i: nat
      ensures OccursAt(name, "@executable_path", i) <==> i < |name| && name[i] == '@' && OccursAt(name, "executable_path", i + 1)
      ensures OccursAt(name, "@loader_path", i) <==> i < |name| && name[i] == '@' && OccursAt(name, "loader_path", i + 1)
      ensures OccursAt(name, "@rpath", i) <==> i < |name| && name[i] == '@' && OccursAt(name, "rpath", i + 1)
    {
      OccursAtCons(name, '@', "executable_path", i);
      OccursAtCons(name, '@', "loader_path", i);
      OccursAtCons(name, '@', "rpath", i);
    }
  }

  /** What one line contributes: the name on a tab-led line, unless that name is relative. */
  function LineDependency(l: Line): seq<string>
  {
    if l[0] == '\t' && !IsRelative(DepName(l)) then [DepName(l)] else []
  }

  /**
   * A line contributes at most one name, and `x` is it exactly when the line
   * starts with a tab, `x` follows the tab and runs up to the first space or
   * the end of the line, and `x` is not relative.
   */
  lemma LineDependencyMeaning(l: Line, x: string)
    ensures |LineDependency(l)| <= 1
    ensures x in LineDependency(l) <==>
      l[0] == '\t' && ['\t'] + x <= l && ' ' !in x && (|x| + 1 == |l| || l[|x| + 1] == ' ') && !IsRelative(x)
  {
    if l[0] == '\t' && ['\t'] + x <= l && ' ' !in x && (|x| + 1 == |l| || l[|x| + 1] == ' ') {
      DepNameUnique(l, x);
    }
  }

  /** `_getDependencies`: the names the lines contribute, in line order. */
  function Dependencies(lines: seq<Line>): (deps: seq<string>)
    ensures |deps| <= |lines|
    ensures forall k :: 0 <= k < |deps| ==> !IsRelative(deps[k])
  {
    if lines == [] then [] else LineDependency(lines[0]) + Dependencies(lines[1..])
  }

  /**
   * A name is returned exactly when some tab-led line carries it and it is
   * not relative; lines of any other shape (the header among them) give nothing.
   */
  lemma {:induction false} DependenciesMembership(lines: seq<Line>, x: string)
    ensures x in Dependencies(lines) <==>
      exists k :: 0 <= k < |lines| && lines[k][0] == '\t' && DepName(lines[k]) == x && !IsRelative(x)
  {
    if lines != [] {
      DependenciesMembership(lines[1..], x);
      if x in Dependencies(lines[1..]) {
        var k :| 0 <= k < |lines[1..]| && lines[1..][k][0] == '\t' && DepName(lines[1..][k]) == x && !IsRelative(x);
        assert lines[k + 1] == lines[1..][k];
      }
      if exists k :: 0 <= k < |lines| && lines[k][0] == '\t' && DepName(lines[k]) == x && !IsRelative(x) {
        var k :| 0 <= k < |lines| && lines[k][0] == '\t' && DepName(lines[k]) == x && !IsRelative(x);
        if k > 0 {
          assert lines[1..][k - 1] == lines[k];
        }
      }
    }
  }

  /** Output split anywhere parses to the two halves' results in order: order and duplicates are kept. */
  lemma {:induction false} DependenciesConcat(a: seq<Line>, b: seq<Line>)
    ensures Dependencies(a + b) == Dependencies(a) + Dependencies(b)
  {
    if a == [] {
      assert a + b == b;
    } else {
      assert (a + b)[1..] == a[1..] + b;
      DependenciesConcat(a[1..], b);
    }
  }

  /** Reading one more line adds what that line contributes. */
  lemma DependenciesSnoc(lines: seq<Line>, l: Line)
    ensures Dependencies(lines + [l]) == Dependencies(lines) + LineDependency(l)
  {
    DependenciesConcat(lines, [l]);
    assert Dependencies([l]) == LineDependency(l) + Dependencies([]);
  }

  /** The three properties of DepName single out one name: a line has only one. */
  lemma DepNameUnique(l: Line, name: string)
    requires ['\t'] + name <= l
    requires ' ' !in name
    requires |name| + 1 == |l| || l[|name| + 1] == ' '
    ensures DepName(l) == name
  {
    var d := DepName(l);
    assert d == l[1..|d| + 1];
  }

  /** The line `otool` prints for a library `name` with the given version note. */
  function LibraryLine(name: string, note: string): Line
  {
    "\t" + name + " " + note + "\n"
  }

  /** The library line names its library, provided the name has no space. */
  lemma LibraryLineName(name: string, note: string)
    requires ' ' !in name
    ensures DepName(LibraryLine(name, note)) == name
  {
    var l := LibraryLine(name, note);
    assert l[|name| + 1] == ' ';
    assert (['\t'] + name) == l[..|name| + 1];
    DepNameUnique(l, name);
  }

  /**
   * A library path with a space in it, such as one under
   * `/Library/Application Support`, is cut short at that space.
   */
  lemma SpacedNameTruncated(head: string, tail: string, note: string)
    requires ' ' !in head
    ensures DepName(LibraryLine(head + " " + tail, note)) == head
  {
    var l := LibraryLine(head + " " + tail, note);
    assert l[|head| + 1] == ' ';
    assert ['\t'] + head == l[..|head| + 1];
    DepNameUnique(l, head);
  }

  /**
   * The shape of a typical listing: the header naming the inspected file is
   * skipped, a run-path entry is dropped, and the two absolute libraries are
   * kept in the order they were printed.
   */
  lemma TypicalListing(header: Line, system: string, qt: string, lib: string, note: string)
    requires header[0] != '\t'
    requires ' ' !in system && '@' !in system
    requires ' ' !in lib && '@' !in lib
    requires ' ' !in qt && OccursAt(qt, "@rpath", 0)
    ensures Dependencies([header, LibraryLine(system, note), LibraryLine(qt, note), LibraryLine(lib, note)])
      == [system, lib]
  {
    var l1, l2, l3 := LibraryLine(system, note), LibraryLine(qt, note), LibraryLine(lib, note);
    LibraryLineName(system, note);
    LibraryLineName(qt, note);
    LibraryLineName(lib, note);
    AbsentCharNotContained(system, "@executable_path", '@');
    AbsentCharNotContained(system, "@loader_path", '@');
    AbsentCharNotContained(system, "@rpath", '@');
    AbsentCharNotContained(lib, "@executable_path", '@');
    AbsentCharNotContained(lib, "@loader_path", '@');
    AbsentCharNotContained(lib, "@rpath", '@');
    assert LineDependency(header) == [] && LineDependency(l2) == [];
    assert LineDependency(l1) == [system] && LineDependency(l3) == [lib];
    var lines := [header, l1, l2, l3];
    assert lines[1..] == [l1, l2, l3];
    assert lines[1..][1..] == [l2, l3];
    assert lines[1..][1..][1..] == [l3];
    assert Dependencies([l3]) == [lib];
    assert Dependencies([l2, l3]) == [lib];
  }
}

=== FILE: posix_path.dfy ===
/** Joining path components the way POSIX `os.path.join` does. */
module PosixPath {

  predicate IsAbsolute(p: string)
  {
    |p| > 0 && p[0] == '/'
  }

  /**
   * One round of `os.path.join`: an absolute component replaces the path
   * built so far; otherwise it is appended, with a separator unless the path
   * is empty or already ends in one.
   */
  function Join(a: string, b: string): (r: string)
    ensures IsAbsolute(b) ==> r == b
    ensures !IsAbsolute(b) && a != [] && a[|a| - 1] != '/' ==> r == a + "/" + b
  {
    if IsAbsolute(b) then b
    else if a == [] || a[|a| - 1] == '/' then a + b
    else a + "/" + b
  }

  /** A relative component joined onto an empty path, or onto one that already ends in `/`, is appended with no separator added. */
  lemma JoinAfterSeparator(a: string, b: string)
    requires !IsAbsolute(b) && (a == [] || a[|a| - 1] == '/')
    ensures Join(a, b) == a + b
  {
  }

  /** `os.path.join(a, *parts)`: the components are joined on one after the other. */
  function JoinAll(a: string, parts: seq<string>): (r: string)
    ensures parts != [] && IsAbsolute(parts[|parts| - 1]) ==> r == parts[|parts| - 1]
    decreases parts
  {
    if parts == [] then a else JoinAll(Join(a, parts[0]), parts[1..])
  }

  /** Joining two components onto `a` is joining them one after the other. */
  lemma JoinAllTwo(a: string, b: string, c: string)
    ensures JoinAll(a, [b, c]) == Join(Join(a, b), c)
  {
    assert [b, c][1..] == [c];
    assert JoinAll(a, [b, c]) == JoinAll(Join(a, b), [c]);
    assert [c][1..] == [];
    assert JoinAll(Join(a, b), [c]) == JoinAll(Join(Join(a, b), c), []);
  }

  /**
   * Relative components land under the first one: with a first component
   * that does not end in a separator and a relative middle one that neither
   * starts nor ends with one, joining three components gives `a/b/c`.
   */
  lemma JoinThreeRelative(a: string, b: string, c: string)
    requires a != [] && a[|a| - 1] != '/'
    requires b != [] && b[0] != '/' && b[|b| - 1] != '/'
    requires !IsAbsolute(c)
    ensures JoinAll(a, [b, c]) == a + "/" + b + "/" + c
  {
    var ab := Join(a, b);
    assert ab == a + "/" + b;
    assert ab[|ab| - 1] == b[|b| - 1];
    JoinAllTwo(a, b, c);
  }
}

=== FILE: text.dfy ===
/** Substring search on strings, with the meaning of Python's `needle in haystack`. */
module Text {

  /** `p` occurs in `s` starting at index `i`. */
  predicate OccursAt(s: string, p: string, i: nat)
  {
    i + |p| <= |s| && s[i..i + |p|] == p
  }

  /** An occurrence in `s[1..]` is an occurrence in `s`, one place further on. */
  lemma OccursAtTail(s: string, p: string, i: nat)
    requires |s| > 0
    ensures OccursAt(s[1..], p, i) <==> OccursAt(s, p, i + 1)
  {
    if i + 1 + |p| <= |s| {
      assert s[1..][i..i + |p|] == s[i + 1..i + 1 + |p|];
    }
  }

  /** `OccursAt` for a pattern that starts with the character `c`: `c` at `i`, then the rest right after it. */
  lemma OccursAtCons(s: string, c: char, w: string, i: nat)
    ensures OccursAt(s, [c] + w, i) <==> i < |s| && s[i] == c && OccursAt(s, w, i + 1)
  {
    if i + 1 + |w| <= |s| {
      assert s[i..i + 1 + |w|] == [s[i]] + s[i + 1..i + 1 + |w|];
    }
  }

  /** `p in s` for Python strings: `p` occurs somewhere in `s`; the empty string occurs in every string. */
  function Contains(s: string, p: string): (r: bool)
    ensures r <==> exists i: nat :: OccursAt(s, p, i)
    decreases |s|
  {
    if |p| > |s| then
      false
    else if s[..|p|] == p then
      assert OccursAt(s, p, 0);
      true
    else
      var r := Contains(s[1..], p);
      assert r ==> exists i: nat :: OccursAt(s, p, i) by {
        if r {
          var i: nat :| OccursAt(s[1..], p, i);
          OccursAtTail(s, p, i);
        }
      }
      assert (exists i: nat :: OccursAt(s, p, i)) ==> r by {
        if exists i: nat :: OccursAt(s, p, i) {
          var i: nat :| OccursAt(s, p, i);
          assert i != 0;
          OccursAtTail(s, p, i - 1);
        }
      }
      r
  }

  /** A pattern holding a character that `s` lacks does not occur in `s`. */
  lemma AbsentCharNotContained(s: string, p: string, c: char)
    requires c in p && c !in s
    ensures !Contains(s, p)
  {
  }
}

=== FILE: walk.dfy ===
/**
 * The records `Fixer` works with and a pure account of one run of `fix`:
 * which entry is processed, what is copied, what is inspected and what is
 * appended to the work list.
 */
module Walk {
  import opened Text
  import opened PosixPath
  import opened Otool

  /** One work-list entry: the file to copy from and where it goes under the bundle's `Contents`. */
  datatype File = File(name: string, destination: string)

  datatype Error =
    | BundleNotFound(path: string)              // the constructor's check of the bundle path
    | CopyFailure(source: string, target: string) // the copy's source does not exist

  datatype Option<T> = None | Some(value: T)

  datatype Result<T> = Ok(value: T) | Err(error: Error)

  /** How a run of `fix` ended: the list was exhausted, a step failed, or the step bound was reached first. */
  datatype Outcome = Completed | Failed(error: Error) | OutOfFuel

  /** What the walk changes: the work list and the set of existing paths. */
  datatype State = State(list: seq<File>, paths: set<string>)

  /** A run's ending, its final state and the paths handed to the inspector, in order. */
  datatype Trace = Trace(outcome: Outcome, state: State, inspected: seq<string>)

  /** The patterns a new `Fixer` filters out: libraries the system provides. */
  const DefaultFilter: seq<string> := ["/usr/lib/", "/System/"]

  /** `_checkIfFiltered`: the patterns are tried in order and the first that occurs in the path decides. */
  function Filtered(filter: seq<string>, path: string): (r: bool)
    ensures r <==> exists k :: 0 <= k < |filter| && Contains(path, filter[k])
  {
    if filter == [] then false
    else if Contains(path, filter[0]) then true
    else
      var r := Filtered(filter[1..], path);
      assert r ==> exists k :: 0 <= k < |filter| && Contains(path, filter[k]) by {
        if r {
          var k :| 0 <= k < |filter[1..]| && Contains(path, filter[1..][k]);
          assert filter[k + 1] == filter[1..][k];
        }
      }
      assert (exists k :: 0 <= k < |filter| && Contains(path, filter[k])) ==> r by {
        if exists k :: 0 <= k < |filter| && Contains(path, filter[k]) {
          var k :| 0 <= k < |filter| && Contains(path, filter[k]);
          assert filter[1..][k - 1] == filter[k];
        }
      }
      r
  }

  /** With the default filter a path is dropped exactly when it mentions `/usr/lib/` or `/System/`. */
  lemma DefaultFilterMeaning(path: string)
    ensures Filtered(DefaultFilter, path) <==> Contains(path, "/usr/lib/") || Contains(path, "/System/")
  {
    if Contains(path, "/usr/lib/") {
      assert Contains(path, DefaultFilter[0]);
    }
    if Contains(path, "/System/") {
      assert Contains(path, DefaultFilter[1]);
    }
  }

  /** `os.path.join(bundle, "Contents")`: the directory entries are placed under. */
  function ContentsDir(bundle: string): string
  {
    Join(bundle, "Contents")
  }

  /**
   * `os.path.join(bundle, "Contents", destination)`: where an entry lives,
   * which is the destination joined onto the `Contents` directory; an
   * absolute destination is taken as it is.
   */
  function ContentsPath(bundle: string, destination: string): (full: string)
    ensures full == Join(ContentsDir(bundle), destination)
    ensures IsAbsolute(destination) ==> full == destination
  {
    JoinAllTwo(bundle, "Contents", destination);
    JoinAll(bundle, ["Contents", destination])
  }

  /** A relative destination, such as `MacOS/MyApp`, is placed under `<bundle>/Contents/`. */
  lemma ContentsPathRelative(bundle: string, destination: string)
    requires bundle != [] && bundle[|bundle| - 1] != '/'
    requires !IsAbsolute(destination)
    ensures ContentsPath(bundle, destination) == bundle + "/Contents/" + destination
  {
    JoinThreeRelative(bundle, "Contents", destination);
  }

  /** `_getDependencies` over the inspector's output: the dependency list of a path. */
  function Inspector(inspect: string -> seq<Line>): string -> seq<string>
  {
    p => Dependencies(inspect(p))
  }

  /** `[File(x, x) for x in deps if not filtered(x)]`. */
  function Enqueued(filter: seq<string>, deps: seq<string>): (files: seq<File>)
    ensures |files| <= |deps|
    ensures forall k :: 0 <= k < |files| ==>
      files[k].destination == files[k].name && files[k].name in deps && !Filtered(filter, files[k].name)
  {
    if deps == [] then []
    else
      var last := deps[|deps| - 1];
      Enqueued(filter, deps[..|deps| - 1]) + (if Filtered(filter, last) then [] else [File(last, last)])
  }

  /** Every dependency the filter lets through is enqueued, and nothing else is. */
  lemma {:induction false} EnqueuedMembership(filter: seq<string>, deps: seq<string>, x: string)
    ensures File(x, x) in Enqueued(filter, deps) <==> x in deps && !Filtered(filter, x)
  {
    if deps != [] {
      var init := deps[..|deps| - 1];
      EnqueuedMembership(filter, init, x);
      assert deps == init + [deps[|deps| - 1]];
    }
  }

  /** Filtering keeps order and duplicates: the result for a concatenation is the concatenation of the results. */
  lemma {:induction false} EnqueuedConcat(filter: seq<string>, a: seq<string>, b: seq<string>)
    ensures Enqueued(filter, a + b) == Enqueued(filter, a) + Enqueued(filter, b)
    decreases |b|
  {
    if b == [] {
      assert a + b == a;
    } else {
      var init := b[..|b| - 1];
      assert (a + b)[..|a + b| - 1] == a + init;
      assert (a + b)[|a + b| - 1] == b[|b| - 1];
      EnqueuedConcat(filter, a, init);
    }
  }

  /**
   * Processing one entry: copy it into place unless its path exists
   * (the copy fails when the source is missing too), list the dependencies
   * of that path and
   * append the dependencies the filter lets through.
   */
  function Step(contents: string, filter: seq<string>, discover: string -> seq<string>, st: State, file: File): (r: Result<State>)
    ensures r.Err? <==> Join(contents, file.destination) !in st.paths && file.name !in st.paths
    ensures r.Ok? ==> r.value.paths == st.paths + {Join(contents, file.destination)}
    ensures r.Ok? ==> |st.list| <= |r.value.list| && r.value.list[..|st.list|] == st.list
  {
    var full := Join(contents, file.destination);
    if full !in st.paths && file.name !in st.paths then
      Err(CopyFailure(file.name, full))
    else
      var deps := discover(full);
      Ok(State(st.list + Enqueued(filter, deps), st.paths + {full}))
  }

  /** The entries one step appends are `File(x, x)` for exactly the dependencies of the inspected path that the filter lets through. */
  lemma StepAppendsSurvivors(contents: string, filter: seq<string>, discover: string -> seq<string>, st: State, file: File, x: string)
    requires Step(contents, filter, discover, st, file).Ok?
    ensures var next := Step(contents, filter, discover, st, file).value;
      forall k :: |st.list| <= k < |next.list| ==> next.list[k].destination == next.list[k].name
    ensures var next := Step(contents, filter, discover, st, file).value;
      File(x, x) in next.list[|st.list|..] <==>
        x in discover(Join(contents, file.destination)) && !Filtered(filter, x)
  {
    var next := Step(contents, filter, discover, st, file).value;
    var deps := discover(Join(contents, file.destination));
    assert next.list[|st.list|..] == Enqueued(filter, deps);
    EnqueuedMembership(filter, deps, x);
  }

  /**
   * An entry created from a dependency names an absolute path, so its
   * joined path is that path itself: processing it never adds a file, and
   * fails exactly when the dependency does not exist.
   */
  lemma DependencyEntryAddsNothing(contents: string, filter: seq<string>, discover: string -> seq<string>, st: State, x: string)
    requires IsAbsolute(x)
    ensures Step(contents, filter, discover, st, File(x, x)).Err? <==> x !in st.paths
    ensures Step(contents, filter, discover, st, File(x, x)).Ok? ==>
      Step(contents, filter, discover, st, File(x, x)).value.paths == st.paths
  {
  }

  /**
   * `for file in self.list` while the body extends the list: entries from
   * index `i` on are processed in order, those appended meanwhile included,
   * until the list is exhausted, a step fails, or `fuel` steps have been taken.
   */
  function Run(contents: string, filter: seq<string>, discover: string -> seq<string>, st: State, i: nat, fuel: nat): (t: Trace)
    requires i <= |st.list|
    ensures |st.list| <= |t.state.list| && t.state.list[..|st.list|] == st.list
    ensures st.paths <= t.state.paths
    decreases fuel
  {
    if i == |st.list| then
      Trace(Completed, st, [])
    else if fuel == 0 then
      Trace(OutOfFuel, st, [])
    else
      match Step(contents, filter, discover, st, st.list[i])
      case Err(e) => Trace(Failed(e), st, [])
      case Ok(next) =>
        var t := Run(contents, filter, discover, next, i + 1, fuel - 1);
        assert t.state.list[..|st.list|] == next.list[..|next.list|][..|st.list|];
        Trace(t.outcome, t.state, [Join(contents, st.list[i].destination)] + t.inspected)
  }

  /** A trace with `prefix` put in front of its inspected paths. */
  function Prefixed(prefix: seq<string>, t: Trace): Trace
  {
    Trace(t.outcome, t.state, prefix + t.inspected)
  }

  /** Rewriting step for `ProcessList`'s loop invariant: two prefixes put in front one after the other. */
  lemma PrefixedTwice(a: seq<string>, b: seq<string>, t: Trace)
    ensures Prefixed(a, Prefixed(b, t)) == Prefixed(a + b, t)
  {
    assert a + (b + t.inspected) == (a + b) + t.inspected;
  }

  /** Rewriting step for `ProcessList`'s loop invariant: the empty prefix changes nothing. */
  lemma PrefixedNothing(t: Trace)
    ensures Prefixed([], t) == t
  {
    assert [] + t.inspected == t.inspected;
  }

  /** Run from an unprocessed entry with fuel left: the outcome of its step, then the rest of the run. */
  lemma RunOnStep(contents: string, filter: seq<string>, discover: string -> seq<string>, st: State, i: nat, fuel: nat)
    requires i < |st.list| && fuel > 0
    ensures Step(contents, filter, discover, st, st.list[i]).Err? ==>
      Run(contents, filter, discover, st, i, fuel) == Trace(Failed(Step(contents, filter, discover, st, st.list[i]).error), st, [])
    ensures Step(contents, filter, discover, st, st.list[i]).Ok? ==>
      Run(contents, filter, discover, st, i, fuel)
        == Prefixed([Join(contents, st.list[i].destination)], Run(contents, filter, discover, Step(contents, filter, discover, st, st.list[i]).value, i + 1, fuel - 1))
  {
  }

  /** A run that has reached the end of the list, or its step bound, stops there. */
  lemma RunStops(contents: string, filter: seq<string>, discover: string -> seq<string>, st: State, i: nat, fuel: nat)
    requires i <= |st.list|
    ensures i == |st.list| ==> Run(contents, filter, discover, st, i, fuel) == Trace(Completed, st, [])
    ensures i < |st.list| && fuel == 0 ==> Run(contents, filter, discover, st, i, fuel) == Trace(OutOfFuel, st, [])
  {
  }

  /** A run whose next entry can be neither found nor copied fails there. */
  lemma RunFails(contents: string, filter: seq<string>, discover: string -> seq<string>, st: State, i: nat, fuel: nat)
    requires i < |st.list| && fuel > 0
    requires Join(contents, st.list[i].destination) !in st.paths && st.list[i].name !in st.paths
    ensures Run(contents, filter, discover, st, i, fuel)
      == Trace(Failed(CopyFailure(st.list[i].name, Join(contents, st.list[i].destination))), st, [])
  {
  }

  /**
   * A run seen after some steps: the inspected paths so far, then the run
   * from the current state; one more successful step extends the former
   * and starts the latter from the next entry.
   */
  lemma RunAfterStep(contents: string, filter: seq<string>, discover: string -> seq<string>, whole: Trace, inspected: seq<string>, st: State, i: nat, fuel: nat, next: State)
    requires i < |st.list| && fuel > 0
    requires whole == Prefixed(inspected, Run(contents, filter, discover, st, i, fuel))
    requires Join(contents, st.list[i].destination) in st.paths || st.list[i].name in st.paths
    requires next == State(st.list + Enqueued(filter, discover(Join(contents, st.list[i].destination))), st.paths + {Join(contents, st.list[i].destination)})
    ensures i + 1 <= |next.list|
    ensures whole == Prefixed(inspected + [Join(contents, st.list[i].destination)], Run(contents, filter, discover, next, i + 1, fuel - 1))
  {
    var rest := Run(contents, filter, discover, next, i + 1, fuel - 1);
    RunOnStep(contents, filter, discover, st, i, fuel);
    PrefixedTwice(inspected, [Join(contents, st.list[i].destination)], rest);
  }

  /** Every entry of `after` beyond the prefix `before` is `File(x, x)` for a path `x` the filter lets through. */
  predicate OnlySurvivorsAppended(filter: seq<string>, before: seq<File>, after: seq<File>)
  {
    forall k :: |before| <= k < |after| ==>
      after[k].destination == after[k].name && !Filtered(filter, after[k].name)
  }

  /** Every entry a run appends is `File(x, x)` for a path `x` the filter lets through. */
  lemma {:induction false} RunAppendsOnlySurvivors(contents: string, filter: seq<string>, discover: string -> seq<string>, st: State, i: nat, fuel: nat)
    requires i <= |st.list|
    ensures OnlySurvivorsAppended(filter, st.list, Run(contents, filter, discover, st, i, fuel).state.list)
    decreases fuel
  {
    if i < |st.list| && fuel > 0 && Step(contents, filter, discover, st, st.list[i]).Ok? {
      var next := Step(contents, filter, discover, st, st.list[i]).value;
      RunAppendsOnlySurvivors(contents, filter, discover, next, i + 1, fuel - 1);
      var after := Run(contents, filter, discover, next, i + 1, fuel - 1).state.list;
      assert Run(contents, filter, discover, st, i, fuel).state.list == after;
      var added := Enqueued(filter, discover(Join(contents, st.list[i].destination)));
      assert next.list == st.list + added;
      forall k | |st.list| <= k < |next.list|
        ensures after[k].destination == after[k].name && !Filtered(filter, after[k].name)
      {
        assert after[k] == after[..|next.list|][k] == next.list[k] == added[k - |st.list|];
      }
    }
  }

  /**
   * The paths of `t.inspected` are the joined paths of the entries from index
   * `i` on, in list order, and each is among the final paths.
   */
  predicate InspectedInOrder(contents: string, t: Trace, i: nat)
  {
    && i + |t.inspected| <= |t.state.list|
    && forall k :: 0 <= k < |t.inspected| ==>
         t.inspected[k] == Join(contents, t.state.list[i + k].destination) && t.inspected[k] in t.state.paths
  }

  /** Putting entry `i`'s joined path, which exists, in front of a trace inspected in order from `i + 1`. */
  lemma InspectedInOrderFront(contents: string, t: Trace, i: nat, full: string)
    requires InspectedInOrder(contents, t, i + 1)
    requires full == Join(contents, t.state.list[i].destination) && full in t.state.paths
    ensures InspectedInOrder(contents, Prefixed([full], t), i)
  {
    var u := Prefixed([full], t);
    forall k | 0 <= k < |u.inspected|
      ensures u.inspected[k] == Join(contents, u.state.list[i + k].destination) && u.inspected[k] in u.state.paths
    {
      if k > 0 {
        assert u.inspected[k] == t.inspected[k - 1];
      }
    }
  }

  /**
   * The inspector is called in list order, one entry after the other from
   * index `i`, each time on the entry's joined path, which is among the
   * final paths; a completed run has processed every entry, the appended
   * ones included, and a run that ran out of fuel has processed exactly
   * `fuel` of them.
   */
  lemma {:induction false} RunInspectsInOrder(contents: string, filter: seq<string>, discover: string -> seq<string>, st: State, i: nat, fuel: nat)
    requires i <= |st.list|
    ensures var t := Run(contents, filter, discover, st, i, fuel);
      && InspectedInOrder(contents, t, i)
      && (t.outcome == Completed ==> i + |t.inspected| == |t.state.list|)
      && (t.outcome == OutOfFuel ==> |t.inspected| == fuel)
    decreases fuel
  {
    if i < |st.list| && fuel > 0 {
      match Step(contents, filter, discover, st, st.list[i])
      case Err(_) =>
      case Ok(next) =>
        RunInspectsInOrder(contents, filter, discover, next, i + 1, fuel - 1);
        var t := Run(contents, filter, discover, next, i + 1, fuel - 1);
        var full := Join(contents, st.list[i].destination);
        RunOnStep(contents, filter, discover, st, i, fuel);
        assert t.state.list[i] == t.state.list[..|next.list|][i] == next.list[i] == st.list[i];
        InspectedInOrderFront(contents, t, i, full);
    }
  }

  /** `File(x, x)` stands in `list` somewhere after index `i`. */
  predicate EnqueuedAfter(list: seq<File>, i: nat, x: string)
  {
    exists m :: i < m < |list| && list[m] == File(x, x)
  }

  lemma EnqueuedAfterEarlier(list: seq<File>, i: nat, x: string)
    requires EnqueuedAfter(list, i + 1, x)
    ensures EnqueuedAfter(list, i, x)
  {
  }

  /** A dependency that survives the filter when entry `i` is processed stands in the final list after `i`. */
  lemma FirstStepEnqueues(contents: string, filter: seq<string>, discover: string -> seq<string>, st: State, i: nat, fuel: nat, x: string)
    requires i < |st.list| && fuel > 0 && Step(contents, filter, discover, st, st.list[i]).Ok?
    requires x in discover(Join(contents, st.list[i].destination)) && !Filtered(filter, x)
    ensures EnqueuedAfter(Run(contents, filter, discover, st, i, fuel).state.list, i, x)
  {
    var next := Step(contents, filter, discover, st, st.list[i]).value;
    var after := Run(contents, filter, discover, next, i + 1, fuel - 1).state.list;
    assert Run(contents, filter, discover, st, i, fuel).state.list == after;
    StepAppendsSurvivors(contents, filter, discover, st, st.list[i], x);
    var j :| 0 <= j < |next.list[|st.list|..]| && next.list[|st.list|..][j] == File(x, x);
    var m := |st.list| + j;
    assert after[m] == after[..|next.list|][m] == next.list[m];
  }

  /**
   * Every dependency the filter lets through, of every path a run inspects,
   * is enqueued as `File(x, x)` behind the entry being processed.
   */
  lemma {:induction false} RunAppendsAllSurvivors(contents: string, filter: seq<string>, discover: string -> seq<string>, st: State, i: nat, fuel: nat, k: nat, x: string)
    requires i <= |st.list|
    requires k < |Run(contents, filter, discover, st, i, fuel).inspected|
    requires x in discover(Run(contents, filter, discover, st, i, fuel).inspected[k]) && !Filtered(filter, x)
    ensures EnqueuedAfter(Run(contents, filter, discover, st, i, fuel).state.list, i, x)
    decreases fuel
  {
    if i < |st.list| && fuel > 0 {
      match Step(contents, filter, discover, st, st.list[i])
      case Err(_) =>
      case Ok(next) =>
        var t := Run(contents, filter, discover, next, i + 1, fuel - 1);
        var u := Run(contents, filter, discover, st, i, fuel);
        assert u.inspected == [Join(contents, st.list[i].destination)] + t.inspected;
        if k == 0 {
          FirstStepEnqueues(contents, filter, discover, st, i, fuel, x);
        } else {
          assert t.inspected[k - 1] == u.inspected[k];
          RunAppendsAllSurvivors(contents, filter, discover, next, i + 1, fuel - 1, k - 1, x);
          EnqueuedAfterEarlier(t.state.list, i, x);
        }
    }
  }

  /**
   * Closure of a completed run: every dependency the filter lets through, of
   * every path inspected, has been processed in turn, so its path exists.
   */
  lemma CompletedRunIsClosed(contents: string, filter: seq<string>, discover: string -> seq<string>, st: State, i: nat, fuel: nat, k: nat, x: string)
    requires i <= |st.list|
    requires Run(contents, filter, discover, st, i, fuel).outcome == Completed
    requires k < |Run(contents, filter, discover, st, i, fuel).inspected|
    requires x in discover(Run(contents, filter, discover, st, i, fuel).inspected[k]) && !Filtered(filter, x)
    ensures Join(contents, x) in Run(contents, filter, discover, st, i, fuel).state.paths
  {
    var t := Run(contents, filter, discover, st, i, fuel);
    RunAppendsAllSurvivors(contents, filter, discover, st, i, fuel, k, x);
    RunInspectsInOrder(contents, filter, discover, st, i, fuel);
    var m :| i < m < |t.state.list| && t.state.list[m] == File(x, x);
    assert t.inspected[m - i] == Join(contents, x);
  }

  /**
   * A set of absolute paths, each of which lists, among its dependencies,
   * a member of the set that the filter lets through: a dependency cycle,
   * or a library that names itself.
   */
  predicate Recurrent(filter: seq<string>, discover: string -> seq<string>, cycle: set<string>)
  {
    forall x {:trigger discover(x)} :: x in cycle ==>
      IsAbsolute(x) && exists y :: y in cycle && y in discover(x) && !Filtered(filter, y)
  }

  /** Entry `j` of `list` names a member of `cycle` as both its path and its destination. */
  predicate OnCycle(list: seq<File>, j: nat, cycle: set<string>)
  {
    j < |list| && list[j].destination == list[j].name && list[j].name in cycle
  }

  /**
   * One successful step from index `i` keeps an entry on the cycle at index
   * `i + 1` or later: the old one when it lies beyond `i`, otherwise one of
   * the survivors the step appended.
   */
  lemma CycleStep(contents: string, filter: seq<string>, discover: string -> seq<string>, st: State, i: nat, cycle: set<string>, j: nat)
    returns (later: nat)
    requires i <= j && OnCycle(st.list, j, cycle)
    requires Recurrent(filter, discover, cycle)
    requires Step(contents, filter, discover, st, st.list[i]).Ok?
    ensures i < later && OnCycle(Step(contents, filter, discover, st, st.list[i]).value.list, later, cycle)
  {
    var next := Step(contents, filter, discover, st, st.list[i]).value;
    var full := Join(contents, st.list[i].destination);
    var added := Enqueued(filter, discover(full));
    assert next.list == st.list + added;
    if j == i {
      var x := st.list[i].name;
      var y :| y in cycle && y in discover(x) && !Filtered(filter, y);
      assert IsAbsolute(x) && full == x;
      EnqueuedMembership(filter, discover(x), y);
      var m :| 0 <= m < |added| && added[m] == File(y, y);
      later := |st.list| + m;
      assert next.list[later] == File(y, y);
    } else {
      later := j;
      assert next.list[j] == st.list[j];
    }
  }

  /**
   * There is no record of processed entries: once an unprocessed entry lies
   * on a dependency cycle, every step re-enqueues a member of the cycle and
   * the run never completes, whatever its fuel.
   */
  lemma {:induction false} CycleNeverCompletes(contents: string, filter: seq<string>, discover: string -> seq<string>, st: State, i: nat, fuel: nat, cycle: set<string>, j: nat)
    requires i <= j && OnCycle(st.list, j, cycle)
    requires Recurrent(filter, discover, cycle)
    ensures Run(contents, filter, discover, st, i, fuel).outcome != Completed
    decreases fuel
  {
    if fuel > 0 && Step(contents, filter, discover, st, st.list[i]).Ok? {
      var later := CycleStep(contents, filter, discover, st, i, cycle, j);
      var next := Step(contents, filter, discover, st, st.list[i]).value;
      CycleNeverCompletes(contents, filter, discover, next, i + 1, fuel - 1, cycle, later);
    }
  }
}
